=== FILE: README.md ===
# go-simple-crud-sample in Dafny

A model of the core of a small blog-post CRUD service written in Go. The service keeps
`Post{ID, Title, Content}` records behind a `PostStore` interface and serves them over HTTP
under `/posts/`. The model covers four parts:

- **The error taxonomy** (`Model`). This is `PostError`, a string type. It has three constants,
  and `Error()` returns the string itself. A Go `error` value is either such a `PostError` or an
  `errors.New` value.
- **The two map-plus-counter stores** (`InMemory`, `StubStore`, with the shared `PostMaps`).
  - Each is a class with a `counter` field and a `map` field that its methods update in place.
  - Each method is proved against a function of the store's abstract `Table(counter, posts)`.
  - The properties the source relies on are lemmas about those functions. They cover key/id
    agreement, counter freshness, upsert versus not-found, idempotent delete and read-after-write.
  - `GetAllPosts` is the `range` loop over the map. It is proved to list each stored post once
    per key (`ValuesOf`, a multiset).
- **The always-failing stub store** (`FailedStore`). It is a value with no state, and each
  operation returns a fixed error.
- **The dispatcher** (`Strconv`, `Http`, `Server`).
  - `Server.Handle` is the decision table of `postsHandler` as a function of the store's abstract
    value. It covers prefix strip, method switch, `Atoi`, one store call, and the error-to-status
    mapping.
  - `PostServer.PostsHandler` runs the same steps against a store object and a `ResponseWriter`
    whose first `WriteHeader` wins, with 200 as the default. It is proved to give exactly what
    `Handle` gives.
  - The lemmas in `Server` state the status table.
  - `Scenarios` replays the request sequences of the handler and integration tests.

The `PostStore` interface (store/postgres.go:11-19) becomes a closed sum. `Store.PostStore` is
the abstract value of the in-memory, stub or failing store. `Store.Backend` holds the store
object and forwards each call to it.

Go's `int` is 64-bit. `Model.Int` is that range, and `Counter++` wraps to the most negative int
at the top (`Model.Inc`). `strconv.Atoi` accepts an optional sign followed by decimal digits
whose value fits in 64 bits. It is proved to read every such string as its value, to reject the
numerals out of range, and to invert decimal formatting (`%d`), which is how the tests build their
paths.

Three behaviours of the code are easy to miss, and the model keeps them:
- The in-memory store never reports an error. `GetPostByID` of a missing id yields `Post{}`
  with no error, and `UpdatePost` of a missing id inserts the post.
- A request whose method matches no case gets no status written, so 200 goes out. It does not
  get 422.
- A POST to `/posts/new`, or a PUT with a numeric id, that lacks the `title` or `text` form field panics
  (`Server.Outcome.Panicked`). It gets no status code.

`Post` is declared in package `model`, in a file that is not part of this model. The record's
fields are those the Postgres store scans and the tests build: an integer id, a title and a
content string.

## Model

| member | source | states |
|---|---|---|
| `Model.Inc` | store/inmemory.go:32 | `Counter++` on a Go int: one more below the maximum, the minimum at the maximum |
| `Model.PostError.Error` | model/errors.go:11-13 | `Error()` returns the underlying string: the PostError is rebuilt from it |
| `Model.ErrorMessages` | model/errors.go:3-7 | the three constants carry "could not find posts", "could not find the post by id", "could not create the post" |
| `Model.ErrorsDistinct` | model/errors.go:3-7 | the three constants are pairwise distinct, also wrapped as `error` values |
| `Model.PostErrorEquality` | model/errors.go:9 | two PostError values are equal exactly when their strings are |
| `Model.DoesNotExistComparison` | server.go:96-97 | `err == ErrorPostDoesNotExist` holds exactly for the PostError with that message; an `errors.New` value with the same text does not match |
| `PostMaps.ListValues` | store/inmemory.go:19-25 | the `range`-and-append loop yields a list whose multiset is exactly the map's values, one per key, in whatever order the keys are visited |
| `PostMaps.ValuesOfRemove` | store/inmemory.go:21-23 | taking any key out of the map takes exactly its post out of the listing, whichever key the iteration picks |
| `PostMaps.ValuesOfSize` | testdata/StubPostStore.go:11-15 | the listing has one entry per key |
| `PostMaps.ValuesOfMembership` | testdata/StubPostStore.go:11-15 | a post is listed exactly when some key maps to it |
| `PostMaps.ValuesOfInsert` | store/inmemory.go:33 | storing under a fresh key adds exactly that post to the listing |
| `PostMaps.ValuesOfReplace` | testdata/StubPostStore.go:41 | overwriting a key swaps the old post for the new one in the listing |
| `PostMaps.ListedPosts` | store/inmemory.go:20-24 | a collected list has the map's size and holds only stored posts |
| `InMemory.Initial` | store/inmemory.go:10-17 | defines the table `NewInMemoryPostStore` builds; its content is stated by `InMemory.InitialTable` |
| `InMemory.Get` | store/inmemory.go:27-29 | defines the map read with Go's zero value for a missing key; stated by `InMemory.GetMissingIsZero` |
| `InMemory.Create` | store/inmemory.go:31-35 | defines the counter bump and the store under the new counter; stated by `InMemory.CreateStores`, `InMemory.CreateAddsFreshKey` and `InMemory.CreateWrapsAtMax` |
| `InMemory.Update` | store/inmemory.go:37-40 | defines the unconditional write under id; stated by `InMemory.UpdateUpserts` |
| `InMemory.Delete` | store/inmemory.go:42-45 | defines the map delete; stated by `InMemory.DeleteRemoves` |
| `InMemory.InitialTable` | store/inmemory.go:10-17 | the new store has counter 1 and exactly the entry 1 -> {1,"title","text"}, with ids matching keys and the counter covering them |
| `InMemory.GetMissingIsZero` | store/inmemory.go:27-29 | a missing id reads back as the zero Post {0,"",""}; a present one as its entry |
| `InMemory.CreateStores` | store/inmemory.go:31-35 | Create bumps the counter by exactly one, with no validation, and the post reads back under the new counter |
| `InMemory.CreateAddsFreshKey` | store/inmemory.go:32-33 | with the counter at least every key, Create adds a fresh key: size +1, old entries unchanged, counter still covers every key |
| `InMemory.CreateWrapsAtMax` | store/inmemory.go:32 | at the largest Go int the counter wraps to the smallest, and the post is stored there |
| `InMemory.UpdateUpserts` | store/inmemory.go:37-40 | Update writes {id,title,text} under id whether or not it existed; other keys and the counter are unchanged; size grows only on insert |
| `InMemory.UpdateCanPassCounter` | store/inmemory.go:38 | Update of a missing id can put a key above the counter |
| `InMemory.DeleteRemoves` | store/inmemory.go:42-45 | Delete removes the id if present, is a no-op otherwise, is idempotent, and the id then reads as the zero Post |
| `InMemory.OperationsKeepIds` | store/inmemory.go:33 | Create, Update and Delete keep every entry's id equal to its key |
| `InMemory.InMemoryPostStore.constructor` | store/inmemory.go:10-17 | `NewInMemoryPostStore` starts from the initial table |
| `InMemory.InMemoryPostStore.GetAllPosts` | store/inmemory.go:19-25 | lists exactly the stored posts, one per key, and never errors |
| `InMemory.InMemoryPostStore.GetPostByID` | store/inmemory.go:27-29 | returns the map read (zero Post when missing) and never errors |
| `InMemory.InMemoryPostStore.CreatePost` | store/inmemory.go:31-35 | the new state is the Create of the old one; no error |
| `InMemory.InMemoryPostStore.UpdatePost` | store/inmemory.go:37-40 | the new state is the upsert of the old one; no error |
| `InMemory.InMemoryPostStore.DeletePost` | store/inmemory.go:42-45 | the new state is the old one without id; no error |
| `StubStore.Get` | testdata/StubPostStore.go:18-25 | defines the lookup that reports a miss; stated by `StubStore.GetReportsMissing` |
| `StubStore.Create` | testdata/StubPostStore.go:27-34 | defines the validating create; stated by `StubStore.CreateRejectsEmpty` and `StubStore.CreateThenGet` |
| `StubStore.Update` | testdata/StubPostStore.go:36-43 | defines the lookup-then-write; stated by `StubStore.UpdateMissing` and `StubStore.UpdatePresent` |
| `StubStore.Delete` | testdata/StubPostStore.go:45-52 | defines the lookup-then-delete; stated by `StubStore.DeleteMissing` and `StubStore.DeleteThenGet` |
| `StubStore.GetReportsMissing` | testdata/StubPostStore.go:18-25 | Get succeeds exactly on stored ids; a miss gives Post{} with ErrorPostDoesNotExist |
| `StubStore.CreateRejectsEmpty` | testdata/StubPostStore.go:27-30 | an empty title or text gives ErrorPostIsNotCreated and leaves counter and posts unchanged |
| `StubStore.CreateThenGet` | testdata/StubPostStore.go:31-33 | with both fields set, Create bumps the counter by one, stores {Counter,title,text} at Counter, and Get(Counter) returns it with no error |
| `StubStore.CreateOnEmpty` | server_test.go:132-147 | on an empty store a successful Create takes the post count from 0 to 1 |
| `StubStore.CreateOverwritesTakenKey` | server_integration_test.go:14-21 | with counter 0 next to key 1, Create overwrites post 1 and the count stays 1 |
| `StubStore.UpdateMissing` | testdata/StubPostStore.go:36-40 | Update of a missing id returns ErrorPostDoesNotExist with the table unchanged |
| `StubStore.UpdatePresent` | testdata/StubPostStore.go:41-42 | Update of a present id replaces only that entry; keys, counter and size unchanged |
| `StubStore.DeleteMissing` | testdata/StubPostStore.go:45-49 | Delete of a missing id returns ErrorPostDoesNotExist with the table unchanged |
| `StubStore.DeleteThenGet` | testdata/StubPostStore.go:50-51 | Delete of a present id removes exactly that key, size drops by one, and a later Get fails with not-found |
| `StubStore.OperationsKeepIds` | testdata/StubPostStore.go:32 | Create, Update and Delete keep every entry's id equal to its key |
| `StubStore.StubPostStore.constructor` | server_test.go:22-27 | the struct literal sets the counter and the map as given |
| `StubStore.StubPostStore.GetAllPosts` | testdata/StubPostStore.go:10-16 | lists exactly the stored posts, one per key (none for an empty map), and never errors |
| `StubStore.StubPostStore.GetPostByID` | testdata/StubPostStore.go:18-25 | returns the lookup result of the specification |
| `StubStore.StubPostStore.CreatePost` | testdata/StubPostStore.go:27-34 | new state and error are those of the validating Create |
| `StubStore.StubPostStore.UpdatePost` | testdata/StubPostStore.go:36-43 | looks the id up first; new state and error are those of Update |
| `StubStore.StubPostStore.DeletePost` | testdata/StubPostStore.go:45-52 | looks the id up first; new state and error are those of Delete |
| `FailedStore.StubFailedPostStore.Connect` | testdata/StubFailedPostStore.go:10-12 | always an error ("failed to ping db"), not a PostError |
| `FailedStore.StubFailedPostStore.Disconnect` | testdata/StubFailedPostStore.go:14-16 | always an error ("failed to close db"), not a PostError |
| `FailedStore.StubFailedPostStore.GetAllPosts` | testdata/StubFailedPostStore.go:18-20 | an empty list with ErrorPostsAreNotFound |
| `FailedStore.StubFailedPostStore.GetPostByID` | testdata/StubFailedPostStore.go:22-24 | Post{} with ErrorPostDoesNotExist for every id |
| `FailedStore.StubFailedPostStore.CreatePost` | testdata/StubFailedPostStore.go:26-28 | always ErrorPostIsNotCreated |
| `FailedStore.StubFailedPostStore.UpdatePost` | testdata/StubFailedPostStore.go:30-32 | always ErrorPostDoesNotExist |
| `FailedStore.StubFailedPostStore.DeletePost` | testdata/StubFailedPostStore.go:34-36 | always ErrorPostDoesNotExist |
| `FailedStore.EveryOperationFails` | testdata/StubFailedPostStore.go:8-36 | no operation of the fieldless store succeeds, whatever its arguments |
| `Store.GetAll` | store/postgres.go:14 | defines the interface listing of each store, as a multiset of posts and an error |
| `Store.GetByID` | store/postgres.go:15 | defines the interface lookup by forwarding to the store behind it |
| `Store.Create` | store/postgres.go:16 | defines the interface create by forwarding to the store behind it |
| `Store.Update` | store/postgres.go:17 | defines the interface update by forwarding to the store behind it |
| `Store.Delete` | store/postgres.go:18 | defines the interface delete by forwarding to the store behind it |
| `Store.FailureChangesNothing` | testdata/StubPostStore.go:27-52 | every failing Create, Update or Delete leaves the store's state as it was |
| `Store.CreateThenGet` | testdata/StubPostStore.go:31-32 | after a Create reporting no error, the post reads back under the new counter with no error |
| `Store.DeleteThenGet` | testdata/StubPostStore.go:45-52 | after deleting a stored id, the stub store reports not-found and the in-memory store the zero Post with no error |
| `Store.UpdateMissing` | testdata/StubPostStore.go:36-40 | Update of a missing id fails in the stub store and inserts in the in-memory store |
| `Store.GetAllOnEmpty` | testdata/StubPostStore.go:10-16 | listing a store with no posts gives nothing and no error |
| `Store.CreateGrowsListing` | store/inmemory.go:31-35 | after a successful Create with a covering counter, the listing is the old one plus the new post |
| `Store.UpdateSwapsListing` | testdata/StubPostStore.go:41 | after Update of a stored id, the listing has the old post swapped for the new |
| `Store.DeleteShrinksListing` | testdata/StubPostStore.go:50 | after deleting a stored id, the listing is the old one minus that post |
| `Store.Backend.GetAllPosts` | store/postgres.go:14 | the interface call lists what the store behind it holds |
| `Store.Backend.GetPostByID` | store/postgres.go:15 | the interface call returns the store's lookup result |
| `Store.Backend.CreatePost` | store/postgres.go:16 | the interface call changes the store as its Create does |
| `Store.Backend.UpdatePost` | store/postgres.go:17 | the interface call changes the store as its Update does |
| `Store.Backend.DeletePost` | store/postgres.go:18 | the interface call changes the store as its Delete does |
| `Strconv.FormatInt` | server_test.go:128 | defines `%d`: a minus sign for negative numbers, then the decimal digits; `Strconv.AtoiFormatInt` states that Atoi reads it back |
| `Strconv.Atoi` | server.go:40 | a success has a digit first or a sign followed by more, and only digits after the first character |
| `Strconv.NatDigitsValue` | server_test.go:127-130 | reading back the decimal digits of n gives n |
| `Strconv.AtoiAccepts` | server.go:40 | every optional sign followed by one or more digits is read as its value when that fits 64 bits, and is rejected when it does not |
| `Strconv.AtoiFormatInt` | server_test.go:127-130 | Atoi inverts `%d` formatting for every 64-bit int |
| `Strconv.AtoiRejects` | server.go:40-43 | "", "new", "abc", "-", "+" and "1a" are rejected |
| `Http.ResponseWriter.constructor` | server.go:33 | a fresh writer has nothing written and status 200 by default |
| `Http.ResponseWriter.WriteHeader` | server.go:42 | the first status written wins; later ones are ignored |
| `Http.ResponseWriter.WriteBody` | server.go:87 | the first body write sends 200 unless a status went out first, and the body is recorded |
| `Http.ResponseWriter.SetContentType` | server.go:90-92 | the content type reaches the response only if set before the status goes out |
| `Http.ResponseWriter.EncodePost` | server.go:101 | encoding the post sends 200 unless a status went out first, and records the post as the body |
| `Http.ResponseWriter.EncodePosts` | server.go:87 | encoding the list sends 200 unless a status went out first, and records the posts as the body |
| `Http.FirstWriteHeaderWins` | server.go:110-112 | of two WriteHeader calls in a row, the first status is the one sent |
| `Server.RouteKey` | server.go:34 | for a path under the prefix, the key is what follows "/posts/" |
| `Server.FormValue` | server.go:50 | the first value of a form field; absent exactly when the Go index would panic |
| `Server.RouteOf` | server.go:35-77 | the method switch: no case for other methods; GET with an empty key lists; POST to "new" creates; GET, PUT and DELETE of a numeral address that id; every other combination is a 422 with no store call |
| `Server.ListResponse` | server.go:80-88 | 200 with JSON and the listing exactly when the store reports no error, else a bare 404 |
| `Server.ReadResponse` | server.go:94-105 | 200 with JSON and the post exactly when there is no error; not-found and every other error give a bare 404 |
| `Server.CreateStatus` | server.go:107-113 | 201 exactly on success, else 404 |
| `Server.UpdateStatus` | server.go:115-120 | 200 exactly on success, else 404 |
| `Server.DeleteStatus` | server.go:122-128 | 204 exactly on success, else 404 |
| `Server.Handle` | server.go:33-128 | the whole decision table; it panics only on a POST or PUT lacking a form field, and only POST, PUT and DELETE change the store |
| `Server.FormattedIdRoutes` | server.go:40-45 | a "/posts/%d" path routes GET, PUT and DELETE to that very id |
| `Server.GetCollection` | server.go:36-38 | GET with an empty key lists the posts with JSON content type and 200, or answers 404 on a store error |
| `Server.NonNumericIdIs422` | server.go:40-43 | GET, PUT or DELETE with a non-numeric key answers 422 and leaves the store alone |
| `Server.EmptyKeyIs422` | server.go:55-56 | PUT or DELETE with an empty key answers 422 and leaves the store alone |
| `Server.GetOneStatus` | server.go:94-105 | GET of a numeric id: 200 with JSON and the post exactly when found; 404 on not-found and on any other error |
| `Server.PostNewStatus` | server.go:47-50 | POST to "new": 201 on success, 404 on failure (the later 201 is ignored); a missing form field panics |
| `Server.PostOtherKeyIs422` | server.go:51-53 | POST to any key but "new" answers 422 with no store call |
| `Server.PutStatus` | server.go:54-65 | PUT of a numeric id: a missing `title` or `text` field panics before any store call; with both, success writes nothing so 200 goes out, failure gives 404, and the store is updated as the store says |
| `Server.DeleteStatusLemma` | server.go:122-128 | DELETE success gives 204; failure gives 404 (the later 204 is ignored) |
| `Server.OtherMethodWritesNothing` | server.go:35-77 | any other method matches no case: default 200, no content type, no body, store unchanged |
| `Server.ReadsKeepStore` | server.go:36-46 | a request with no POST, PUT or DELETE method never changes the store |
| `Server.FailedStoreNeverSucceeds` | server.go:80-128 | against the failing store no request gets a body or a 201/204, and 200 only when no case matched |
| `Server.StatusesSent` | server.go:33-128 | the handler sends only 200, 201, 204, 404 or 422 |
| `Server.PostServer.constructor` | server.go:21-31 | the server keeps the store it was built with |
| `Server.PostServer.PostsHandler` | server.go:33-78 | the handler's new store and response are exactly those `Handle` gives; it panics exactly when `Handle` says so, and then the store is unchanged and nothing has been written |
| `Server.PostServer.GetAllPosts` | server.go:80-88 | the response is the listing mapping for the store's current value |
| `Server.PostServer.GetPostByID` | server.go:94-105 | the response is the lookup mapping of the store's result |
| `Server.PostServer.CreatePost` | server.go:107-113 | the store is created into, and the status is 201, or 404 on failure |
| `Server.PostServer.UpdatePost` | server.go:115-120 | the store is updated, and the status is 200 by default, or 404 on failure |
| `Server.PostServer.DeletePost` | server.go:122-128 | the store is deleted from, and the status is 204, or 404 on failure |
| `Scenarios.GetAllRequest` | server_test.go:72-75 | `newGetAllPostsRequest`: GET /posts/ with no form |
| `Scenarios.GetRequest` | server_test.go:127-130 | `newGetPostByIDRequest`: GET of "/posts/%d" with no form |
| `Scenarios.Form` | server_test.go:162 | the parsed form of the tests' query strings: one `title` and one `text` value |
| `Scenarios.CreateRequest` | server_test.go:161-165 | `newCreatePostRequest`: POST /posts/new carrying the given title and text |
| `Scenarios.UpdateRequest` | server_test.go:200-204 | `newUpdatePostRequest`: PUT of "/posts/%d" carrying "new title" and "new text", whatever title and text it is given |
| `Scenarios.DeleteRequest` | server_test.go:256-259 | `newDeletePostRequest`: DELETE of "/posts/%d" with no form |
| `Scenarios.OnePost` | server_integration_test.go:14-21 | the one-post stub store {1 -> {1,"title","text"}} with a given counter: 1 in the handler tests (server_test.go:22-27), 0 in `NewInMemoryPostStore` |
| `Scenarios.ReturnAllPosts` | server_test.go:18-37 | GET /posts/ on the one-post store lists that post with 200 and JSON |
| `Scenarios.ReturnEmptyPostsList` | server_test.go:39-51 | GET /posts/ on an empty store gives 200 and an empty list |
| `Scenarios.GetMissingIdIs404` | server_test.go:53-69 | GET /posts/2 on a store holding only id 99 answers 404 |
| `Scenarios.GetNonNumericIs422` | server.go:40-43 | GET /posts/abc answers 422 on any store |
| `Scenarios.OutOfRangeIdIs422` | server.go:40-43 | GET of a numeral past the 64-bit range, such as /posts/9223372036854775808, answers 422 on any store |
| `Scenarios.ReturnPostByID` | server_test.go:95-113 | GET /posts/1 returns the post with 200 and JSON |
| `Scenarios.FailedStoreAnswers404` | server_test.go:115-158 | the failing store answers 404 to GET /posts/0 and to POST /posts/new |
| `Scenarios.CreateNewPost` | server_test.go:133-147 | POST /posts/new on an empty store answers 201 and leaves one post |
| `Scenarios.CreateStep` | server_integration_test.go:36-38 | one POST /posts/new with "title" and "text" on a stub store answers 201 and stores the post under the next counter |
| `Scenarios.CreatingPostsAndRetrievingThem` | server_integration_test.go:32-47 | three creates on an empty store, then GET /posts/: 200 and posts 1, 2, 3 |
| `Scenarios.UpdatingThePostAndRetrievingIt` | server_integration_test.go:49-61 | PUT /posts/1, then GET /posts/: 200 and only {1,"new title","new text"} |
| `Scenarios.DeletingThePostAndRetrievingOtherOnes` | server_integration_test.go:63-75 | DELETE /posts/1 answers 204; then the listing is empty with 200, and GET /posts/1 answers 404 |
| `Scenarios.MissingIdKeepsCount` | server_test.go:167-253 | on the shared store of TestUpdatePost, PUT /posts/1 answers 200 and PUT /posts/2 then answers 404 with the store unchanged; DELETE /posts/2 answers 404 with the store unchanged; one post remains |
| `Scenarios.DeepEqualPosts` | server_test.go:279-284 | defines `reflect.DeepEqual` on two post slices: equal element by element, in order |
| `Scenarios.ListingComparisonCanFail` | server_integration_test.go:41-46 | two orders of the three created posts are both listings of the same map, yet an in-order comparison of them fails |
| `Scenarios.ListingsMatch` | server_integration_test.go:41-46 | two runs of the listing loop over one map always agree as multisets |

## Left out

- store/postgres.go's `PostgresPostStore` (store/postgres.go:21-98) is not part of this model. It wraps `database/sql`; most query and scan failures end the process through `log.Fatal`, while a failed listing query and the connection calls return their errors. Only the interface shape at store/postgres.go:11-19 is kept.
- `Connect` and `Disconnect` of the interface: the handler never calls them, and the two map-backed stores do not have them. They are modelled for the failing stub only.
- `StubPostStore.Close` (testdata/StubPostStore.go:54-56) always returns nil, and nothing calls it.
- main.go and service.go are not part of this model. main.go is bootstrap and I/O only, and service.go declares an unused interface.
- The `PostStore` interface is modelled as a closed sum of the three stores of the modelled core. A store outside these three cannot be plugged in.
- net/http machinery: `ServeMux` prefix matching and redirects, the parsing behind `ParseForm` (the form is given already parsed), the unused logger field, and headers other than the content type.
- JSON encoding: the body is the value handed to `Encode`. The writer keeps one body value, because the handler encodes at most once per request.
- The panic on a missing form field is the `Panicked` outcome. What net/http does after recovering from it is not modelled.
- `strconv.Atoi` errors are success or failure only. The `NumError` value is not modelled.
- Concurrency: the maps are unsynchronised in the source, and the model is sequential.
- `errors.New` identity: two `errors.New` values compare by pointer in Go, but two `GoError.Plain` values with the same text are equal. No code of the model compares two such errors.
- Wiring mismatches between the constructor and its callers (argument order, a database handle passed where a string is expected) are not modelled. Each component is modelled on its own.
- `InMemory.InMemoryPostStore.GetAllPosts`: states the listing as a multiset of the map's values. The order Go's map iteration produces is unspecified and is not modelled.
- `StubStore.StubPostStore.GetAllPosts`: states the listing as a multiset for the same reason.
- `Server.Handle`: carries the listing body as a multiset for the same reason.

## Findings

| source | as written | input that shows it | evidently intended | confidence | as-written member | corrected member |
|---|---|---|---|---|---|---|
| server_integration_test.go:41-46 | the listing decoded from GET /posts/ is compared with a second `GetAllPosts` of the same store by `reflect.DeepEqual`, which compares slices in order, while both come from a `range` over a Go map, whose order is unspecified and varies between runs | the three posts created at lines 36-38: one run may list them as 1, 2, 3 and the other as 2, 3, 1, and then the test fails with the code correct | compare the two listings without regard to order (as multisets) | high; not executed | `Scenarios.ListingComparisonCanFail` | `Scenarios.ListingsMatch` |

=== FILE: failedstore.dfy ===
/**
 * `StubFailedPostStore` (testdata/StubFailedPostStore.go): a store with no
 * fields whose every operation fails with a fixed error. Having no state, it is
 * a plain value here, and every operation is a function of its arguments.
 */
module FailedStore {
  import opened Wrappers
  import opened Model

  datatype StubFailedPostStore = StubFailedPostStore {

    /** `Connect` always fails (an `errors.New` value, not a PostError). */
    function Connect(): (err: GoError)
      ensures !err.PostErr? && err.Error() == "failed to ping db"
    {
      Plain("failed to ping db")
    }

    /** `Disconnect` always fails (an `errors.New` value, not a PostError). */
    function Disconnect(): (err: GoError)
      ensures !err.PostErr? && err.Error() == "failed to close db"
    {
      Plain("failed to close db")
    }

    /** `GetAllPosts` yields an empty list together with `ErrorPostsAreNotFound`. */
    function GetAllPosts(): (r: (seq<Post>, Option<GoError>))
      ensures r.0 == [] && r.1 == Some(PostErr(ErrorPostsAreNotFound))
    {
      ([], Some(PostErr(ErrorPostsAreNotFound)))
    }

    /** `GetPostByID` yields `Post{}` with `ErrorPostDoesNotExist`, whatever the id. */
    function GetPostByID(id: Int): (r: (Post, Option<GoError>))
      ensures r.0 == Post(0, "", "") && r.1 == Some(PostErr(ErrorPostDoesNotExist))
    {
      (ZeroPost, Some(PostErr(ErrorPostDoesNotExist)))
    }

    /** `CreatePost` always fails with `ErrorPostIsNotCreated`, whatever the fields. */
    function CreatePost(title: string, text: string): (err: Option<GoError>)
      ensures err == Some(PostErr(ErrorPostIsNotCreated))
    {
      Some(PostErr(ErrorPostIsNotCreated))
    }

    /** `UpdatePost` always fails with `ErrorPostDoesNotExist`. */
    function UpdatePost(id: Int, title: string, text: string): (err: Option<GoError>)
      ensures err == Some(PostErr(ErrorPostDoesNotExist))
    {
      Some(PostErr(ErrorPostDoesNotExist))
    }

    /** `DeletePost` always fails with `ErrorPostDoesNotExist`. */
    function DeletePost(id: Int): (err: Option<GoError>)
      ensures err == Some(PostErr(ErrorPostDoesNotExist))
    {
      Some(PostErr(ErrorPostDoesNotExist))
    }
  }

  /** No operation succeeds: each one hands back an error, whatever its arguments. */
  lemma EveryOperationFails(s: StubFailedPostStore, id: Int, title: string, text: string)
    ensures s.GetAllPosts().1.Some? && s.GetPostByID(id).1.Some?
    ensures s.CreatePost(title, text).Some? && s.UpdatePost(id, title, text).Some?
    ensures s.DeletePost(id).Some?
  {
  }
}

=== FILE: http.dfy ===
/**
 * The slice of `net/http` the handler touches: the request it reads, and the
 * response writer it changes. A request is its method, its URL path and the form
 * values `ParseForm` collects; a response is a status, a content type and the
 * value handed to the JSON encoder.
 */
module Http {
  import opened Wrappers
  import opened Model

  const MethodGet: string := "GET"
  const MethodPost: string := "POST"
  const MethodPut: string := "PUT"
  const MethodDelete: string := "DELETE"

  const StatusOK: int := 200
  const StatusCreated: int := 201
  const StatusNoContent: int := 204
  const StatusNotFound: int := 404
  const StatusUnprocessableEntity: int := 422

  datatype Request = Request(httpMethod: string, path: string, form: map<string, seq<string>>)

  /**
   * The value passed to `json.NewEncoder(w).Encode`. A list of posts is kept as a
   * multiset: it comes from ranging over a Go map, whose order is unspecified.
   */
  datatype Body = NoBody | PostJson(post: Post) | PostsJson(posts: multiset<Post>)

  datatype Response = Response(status: int, contentType: Option<string>, body: Body)

  /** A response that carries only a status. */
  function StatusOnly(status: int): Response
  {
    Response(status, None, NoBody)
  }

  /**
   * The response writer. The status is sent with the headers by the first
   * `WriteHeader`, or by the first body write, which implies status 200; later
   * `WriteHeader` calls are ignored, and so is a header set after that point.
   */
  class ResponseWriter {
    var wroteHeader: bool
    var code: int
    var contentType: Option<string>
    var body: Body

    /** Nothing written yet: the status that goes out by default is 200. */
    predicate Unwritten()
      reads this
    {
      !wroteHeader && code == StatusOK && contentType == None && body == NoBody
    }

    /** The response as the client receives it. */
    function Result(): Response
      reads this
    {
      Response(code, contentType, body)
    }

    constructor ()
      ensures Unwritten()
    {
      wroteHeader := false;
      code := StatusOK;
      contentType := None;
      body := NoBody;
    }

    /** `w.WriteHeader(status)`: the first call wins. */
    method WriteHeader(status: int)
      modifies this
      ensures wroteHeader
      ensures code == if old(wroteHeader) then old(code) else status
      ensures contentType == old(contentType) && body == old(body)
    {
      if !wroteHeader {
        wroteHeader := true;
        code := status;
      }
    }

    /** `w.Header().Set("content-type", value)`: reaches the client only before the status goes out. */
    method SetContentType(value: string)
      modifies this
      ensures wroteHeader == old(wroteHeader) && code == old(code) && body == old(body)
      ensures contentType == if old(wroteHeader) then old(contentType) else Some(value)
    {
      if !wroteHeader {
        contentType := Some(value);
      }
    }

    /** Writing the body first sends the status, 200 unless one was already written. */
    method WriteBody(b: Body)
      modifies this
      ensures wroteHeader
      ensures code == if old(wroteHeader) then old(code) else StatusOK
      ensures contentType == old(contentType) && body == b
    {
      if !wroteHeader {
        wroteHeader := true;
        code := StatusOK;
      }
      body := b;
    }

    /** `json.NewEncoder(w).Encode(post)`. */
    method EncodePost(post: Post)
      modifies this
      ensures wroteHeader
      ensures code == if old(wroteHeader) then old(code) else StatusOK
      ensures contentType == old(contentType) && body == PostJson(post)
    {
      WriteBody(PostJson(post));
    }

    /** `json.NewEncoder(w).Encode(posts)` for a list of posts. */
    method EncodePosts(posts: seq<Post>)
      modifies this
      ensures wroteHeader
      ensures code == if old(wroteHeader) then old(code) else StatusOK
      ensures contentType == old(contentType) && body == PostsJson(multiset(posts))
    {
      WriteBody(PostsJson(multiset(posts)));
    }
  }

  /** Two WriteHeader calls in a row: the second changes nothing. */
  method FirstWriteHeaderWins(first: int, second: int) returns (status: int)
    ensures status == first
  {
    var w := new ResponseWriter();
    w.WriteHeader(first);
    w.WriteHeader(second);
    status := w.Result().status;
  }
}

=== FILE: inmemory.dfy ===
/**
 * `InMemoryPostStore` (store/inmemory.go): a counter and a map from id to Post,
 * changed in place. No operation ever reports an error: Update is an upsert,
 * Delete of a missing id does nothing, and a missing id reads back as `Post{}`.
 */
module InMemory {
  import opened Wrappers
  import opened Model
  import opened PostMaps

  // The store's behaviour as functions of its abstract state.

  /** The table `NewInMemoryPostStore` starts from: one sample post under key 1. */
  function Initial(): Table
  {
    Table(1, map[1 := Post(1, "title", "text")])
  }

  /** `GetPostByID`: the Go map read, which yields the zero Post for a missing key. */
  function Get(t: Table, id: Int): Post
  {
    if id in t.posts then t.posts[id] else ZeroPost
  }

  /** `CreatePost`: bump the counter and store the post under the new counter. */
  function Create(t: Table, title: string, text: string): Table
  {
    var id := Inc(t.counter);
    Table(id, t.posts[id := Post(id, title, text)])
  }

  /** `UpdatePost`: write the post under `id`, whether or not it was there. */
  function Update(t: Table, id: Int, title: string, text: string): Table
  {
    t.(posts := t.posts[id := Post(id, title, text)])
  }

  /** `DeletePost`: Go's `delete`, a no-op for a missing key. */
  function Delete(t: Table, id: Int): Table
  {
    t.(posts := t.posts - {id})
  }

  // Properties of the specification.

  /** The initial table has counter 1 and keeps both store invariants. */
  lemma InitialTable()
    ensures Initial().counter == 1 && |Initial().posts| == 1
    ensures Initial().posts[1] == Post(1, "title", "text")
    ensures KeysMatchIds(Initial().posts) && CounterCoversKeys(Initial())
  {
  }

  /** A missing id reads back as the zero Post; a present one as its entry. */
  lemma GetMissingIsZero(t: Table, id: Int)
    ensures id !in t.posts ==> Get(t, id) == Post(0, "", "")
    ensures id in t.posts ==> Get(t, id) == t.posts[id]
  {
  }

  /**
   * Create takes the next counter value as the id, with no check on title or text;
   * the created post reads back under that id.
   */
  lemma CreateStores(t: Table, title: string, text: string)
    requires t.counter < MaxInt64
    ensures Create(t, title, text).counter == t.counter + 1
    ensures Get(Create(t, title, text), t.counter + 1) == Post(t.counter + 1, title, text)
  {
  }

  /**
   * When the counter is at least every key, Create adds a fresh key: the map grows
   * by one, the old entries are untouched and the counter still covers every key.
   */
  lemma CreateAddsFreshKey(t: Table, title: string, text: string)
    requires CounterCoversKeys(t) && t.counter < MaxInt64
    ensures var r := Create(t, title, text);
      && t.counter + 1 !in t.posts
      && r.posts.Keys == t.posts.Keys + {t.counter + 1}
      && |r.posts| == |t.posts| + 1
      && (forall k | k in t.posts :: r.posts[k] == t.posts[k])
      && CounterCoversKeys(r)
  {
    var r := Create(t, title, text);
    assert t.counter + 1 !in t.posts;
    assert r.posts.Keys == t.posts.Keys + {t.counter + 1};
  }

  /** `Counter++` on a Go int wraps: at the top the next id is the most negative int. */
  lemma CreateWrapsAtMax(t: Table, title: string, text: string)
    requires t.counter == MaxInt64
    ensures Create(t, title, text).counter == MinInt64
    ensures Create(t, title, text).posts[MinInt64] == Post(MinInt64, title, text)
  {
  }

  /** Update is an upsert: the entry is rewritten or inserted, nothing else changes. */
  lemma UpdateUpserts(t: Table, id: Int, title: string, text: string)
    ensures var r := Update(t, id, title, text);
      && r.counter == t.counter
      && r.posts[id] == Post(id, title, text)
      && r.posts.Keys == t.posts.Keys + {id}
      && (forall k | k in t.posts && k != id :: r.posts[k] == t.posts[k])
      && |r.posts| == if id in t.posts then |t.posts| else |t.posts| + 1
  {
    var r := Update(t, id, title, text);
    assert r.posts.Keys == t.posts.Keys + {id};
  }

  /** Update of a missing id may place a key above the counter, breaking its cover. */
  lemma UpdateCanPassCounter()
    ensures CounterCoversKeys(Initial())
    ensures !CounterCoversKeys(Update(Initial(), 2, "t", "x"))
  {
    assert 2 in Update(Initial(), 2, "t", "x").posts;
  }

  /** Delete removes the id if present and is a no-op otherwise; it is idempotent. */
  lemma DeleteRemoves(t: Table, id: Int)
    ensures var r := Delete(t, id);
      && r.counter == t.counter
      && r.posts.Keys == t.posts.Keys - {id}
      && (forall k | k in r.posts :: r.posts[k] == t.posts[k])
      && (id !in t.posts ==> r == t)
      && Delete(r, id) == r
      && Get(r, id) == ZeroPost
  {
    var r := Delete(t, id);
    assert r.posts.Keys == t.posts.Keys - {id};
    if id !in t.posts {
      assert r.posts == t.posts;
    }
    assert Delete(r, id).posts == r.posts;
  }

  /** Every entry's id equals its key, and Create, Update and Delete keep it so. */
  lemma OperationsKeepIds(t: Table, id: Int, title: string, text: string)
    requires KeysMatchIds(t.posts)
    ensures KeysMatchIds(Create(t, title, text).posts)
    ensures KeysMatchIds(Update(t, id, title, text).posts)
    ensures KeysMatchIds(Delete(t, id).posts)
  {
  }

  /** The store object: `InMemoryPostStore{Counter, Store}`. */
  class InMemoryPostStore {
    var counter: Int
    var store: map<Int, Post>

    function State(): Table
      reads this
    {
      PostMaps.Table(counter, store)
    }

    /** `NewInMemoryPostStore()`. */
    constructor ()
      ensures State() == Initial()
    {
      counter := 1;
      store := map[1 := Post(1, "title", "text")];
    }

    /** Every stored post, each once per key, in no particular order; never an error. */
    method GetAllPosts() returns (posts: seq<Post>, err: Option<GoError>)
      ensures multiset(posts) == ValuesOf(store) && |posts| == |store|
      ensures err == None
    {
      posts := ListValues(store);
      ListedPosts(store, posts);
      err := None;
    }

    method GetPostByID(id: Int) returns (post: Post, err: Option<GoError>)
      ensures post == Get(State(), id) && err == None
    {
      post := if id in store then store[id] else ZeroPost;
      err := None;
    }

    method CreatePost(title: string, text: string) returns (err: Option<GoError>)
      modifies this
      ensures State() == Create(old(State()), title, text) && err == None
    {
      counter := Inc(counter);
      store := store[counter := Post(counter, title, text)];
      err := None;
    }

    method UpdatePost(id: Int, title: string, text: string) returns (err: Option<GoError>)
      modifies this
      ensures State() == Update(old(State()), id, title, text) && err == None
    {
      store := store[id := Post(id, title, text)];
      err := None;
    }

    method DeletePost(id: Int) returns (err: Option<GoError>)
      modifies this
      ensures State() == Delete(old(State()), id) && err == None
    {
      store := store - {id};
      err := None;
    }
  }
}

=== FILE: model.dfy ===
/**
 * The `model` package: the Post record, the PostError type with its three
 * constants, and the Go integer and `error` values the stores hand back.
 */
module Model {

  /** Go's `int` on a 64-bit platform. */
  const MinInt64: int := -0x8000_0000_0000_0000
  const MaxInt64: int :=  0x7FFF_FFFF_FFFF_FFFF

  type Int = x: int | MinInt64 <= x <= MaxInt64

  /** `x++` on a Go `int`: two's-complement wrap-around at the top. */
  function Inc(x: Int): (r: Int)
    ensures x < MaxInt64 ==> r == x + 1
    ensures x == MaxInt64 ==> r == MinInt64
  {
    if x == MaxInt64 then MinInt64 else x + 1
  }

  /** A blog post: `Post{ID, Title, Content}`. */
  datatype Post = Post(id: Int, title: string, content: string)

  /** The zero value `Post{}` that a Go map lookup yields for a missing key. */
  const ZeroPost: Post := Post(0, "", "")

  /** `type PostError string`. */
  datatype PostError = PostError(text: string) {

    /** `Error()` hands back the underlying string, so the error is recovered from it. */
    function Error(): (s: string)
      ensures PostError(s) == this
    {
      text
    }
  }

  const ErrorPostsAreNotFound: PostError := PostError("could not find posts")
  const ErrorPostDoesNotExist: PostError := PostError("could not find the post by id")
  const ErrorPostIsNotCreated: PostError := PostError("could not create the post")

  /**
   * A value of Go's `error` interface as this program produces it: either a
   * `PostError` or an `errors.New` value. Interface equality compares the dynamic
   * type first, so a `Plain` error never equals a `PostErr` one. Two `errors.New`
   * values compare by pointer in Go, while two `Plain` values with the same text
   * are equal here; no code of this model compares two such errors.
   */
  datatype GoError = PostErr(postError: PostError) | Plain(message: string) {

    function Error(): string
    {
      match this
      case PostErr(e) => e.Error()
      case Plain(m) => m
    }
  }

  /** The three error constants carry the fixed messages of the source. */
  lemma ErrorMessages()
    ensures ErrorPostsAreNotFound.Error() == "could not find posts"
    ensures ErrorPostDoesNotExist.Error() == "could not find the post by id"
    ensures ErrorPostIsNotCreated.Error() == "could not create the post"
  {
  }

  /** The three constants are pairwise distinct, also as `error` values. */
  lemma ErrorsDistinct()
    ensures ErrorPostsAreNotFound != ErrorPostDoesNotExist
    ensures ErrorPostsAreNotFound != ErrorPostIsNotCreated
    ensures ErrorPostDoesNotExist != ErrorPostIsNotCreated
    ensures PostErr(ErrorPostsAreNotFound) != PostErr(ErrorPostDoesNotExist)
    ensures PostErr(ErrorPostIsNotCreated) != PostErr(ErrorPostDoesNotExist)
  {
  }

  /** Two PostError values are equal exactly when their strings are. */
  lemma PostErrorEquality(a: PostError, b: PostError)
    ensures a == b <==> a.Error() == b.Error()
  {
  }

  /**
   * The comparison `err == ErrorPostDoesNotExist` holds for exactly one `error`
   * value: a Plain error with the same message does not match it.
   */
  lemma DoesNotExistComparison(err: GoError)
    ensures err == PostErr(ErrorPostDoesNotExist) <==>
            err.PostErr? && err.Error() == "could not find the post by id"
  {
  }
}

=== FILE: postmaps.dfy ===
/**
 * What the two map-backed stores share: a counter next to a map from id to
 * Post, the multiset of the map's values that `GetAllPosts` hands out, and the
 * `range` loop that collects them.
 */
module PostMaps {
  import opened Model

  /** The abstract state of a map-plus-counter post table. */
  datatype Table = Table(counter: Int, posts: map<Int, Post>)

  /** Every stored post carries its own key as its id. */
  ghost predicate KeysMatchIds(m: map<Int, Post>)
  {
    forall k | k in m :: m[k].id == k
  }

  /** The counter is at least every key, so the next id it hands out is fresh. */
  ghost predicate CounterCoversKeys(t: Table)
  {
    forall k | k in t.posts :: k <= t.counter
  }

  /** The values of a map, counted with multiplicity (one per key). */
  ghost function ValuesOf(m: map<Int, Post>): multiset<Post>
    decreases |m|
  {
    if m == map[] then multiset{}
    else
      var k :| k in m;
      assert |m - {k}| == |m| - 1 by { assert (m - {k}).Keys == m.Keys - {k}; }
      ValuesOf(m - {k}) + multiset{m[k]}
  }

  lemma RemoveSize(m: map<Int, Post>, k: Int)
    requires k in m
    ensures |m - {k}| == |m| - 1
  {
    assert (m - {k}).Keys == m.Keys - {k};
  }

  /** Taking any key out of the map takes exactly its value out of ValuesOf. */
  lemma {:induction false} ValuesOfRemove(m: map<Int, Post>, k: Int)
    requires k in m
    ensures ValuesOf(m) == ValuesOf(m - {k}) + multiset{m[k]}
    decreases |m|
  {
    var j: Int := ChosenKey(m);
    if j != k {
      // both orders of taking out j and k leave the same rest
      var mj, mk := m - {j}, m - {k};
      var rest := mj - {k};
      assert rest == mk - {j} by {
        assert rest.Keys == mk.Keys - {j};
      }
      var r := ValuesOf(rest);
      assert ValuesOf(mj) == r + multiset{m[k]} by {
        RemoveSize(m, j);
        ValuesOfRemove(mj, k);
      }
      assert ValuesOf(mk) == r + multiset{m[j]} by {
        RemoveSize(m, k);
        ValuesOfRemove(mk, j);
      }
    }
  }

  /** The key that ValuesOf takes out first. */
  lemma ChosenKey(m: map<Int, Post>) returns (j: Int)
    requires m != map[]
    ensures j in m && ValuesOf(m) == ValuesOf(m - {j}) + multiset{m[j]}
  {
    j :| j in m && ValuesOf(m) == ValuesOf(m - {j}) + multiset{m[j]};
  }

  /** ValuesOf has one entry per key. */
  lemma {:induction false} ValuesOfSize(m: map<Int, Post>)
    ensures |ValuesOf(m)| == |m|
    decreases |m|
  {
    if m != map[] {
      var k :| k in m;
      ValuesOfRemove(m, k);
      RemoveSize(m, k);
      ValuesOfSize(m - {k});
    }
  }

  /** A post is among ValuesOf exactly when some key maps to it. */
  lemma {:induction false} ValuesOfMembership(m: map<Int, Post>, p: Post)
    ensures p in ValuesOf(m) <==> p in m.Values
    decreases |m|
  {
    if m != map[] {
      var k :| k in m;
      ValuesOfRemove(m, k);
      RemoveSize(m, k);
      ValuesOfMembership(m - {k}, p);
      assert m.Values == (m - {k}).Values + {m[k]} by {
        forall q | q in m.Values ensures q in (m - {k}).Values + {m[k]} {
          var j :| j in m && m[j] == q;
          if j != k { assert j in m - {k}; }
        }
      }
    }
  }

  /** Storing a post under a fresh key adds exactly that post to ValuesOf. */
  lemma ValuesOfInsert(m: map<Int, Post>, k: Int, p: Post)
    requires k !in m
    ensures ValuesOf(m[k := p]) == ValuesOf(m) + multiset{p}
  {
    ValuesOfRemove(m[k := p], k);
    assert m[k := p] - {k} == m;
  }

  /** Overwriting a stored key swaps the old post for the new one in ValuesOf. */
  lemma ValuesOfReplace(m: map<Int, Post>, k: Int, p: Post)
    requires k in m
    ensures ValuesOf(m[k := p]) == ValuesOf(m) - multiset{m[k]} + multiset{p}
  {
    var rest: map<Int, Post> := m - {k};
    assert ValuesOf(m) - multiset{m[k]} == ValuesOf(rest) by {
      ValuesOfRemove(m, k);
    }
    assert rest[k := p] == m[k := p];
    ValuesOfInsert(rest, k, p);
  }

  /**
   * `for _, post := range m { posts = append(posts, post) }`: Go visits the keys
   * in an unspecified order, so the loop takes any key it has not visited yet.
   */
  method ListValues(m: map<Int, Post>) returns (posts: seq<Post>)
    ensures multiset(posts) == ValuesOf(m)
  {
    posts := [];
    var rest := m;
    while rest != map[]
      invariant multiset(posts) + ValuesOf(rest) == ValuesOf(m)
      decreases |rest|
    {
      var k :| k in rest;
      ValuesOfRemove(rest, k);
      RemoveSize(rest, k);
      posts := posts + [rest[k]];
      rest := rest - {k};
    }
  }

  /** Each of the collected posts is a value of the map, and there is one per key. */
  lemma ListedPosts(m: map<Int, Post>, posts: seq<Post>)
    requires multiset(posts) == ValuesOf(m)
    ensures |posts| == |m|
    ensures forall p | p in posts :: p in m.Values
  {
    ValuesOfSize(m);
    assert |multiset(posts)| == |posts|;
    forall p | p in posts ensures p in m.Values {
      assert p in multiset(posts);
      ValuesOfMembership(m, p);
    }
  }
}

=== FILE: scenarios.dfy ===
/**
 * Request sequences from the handler tests and the integration tests, played
 * through the dispatcher function `Server.Handle`.
 */
module Scenarios {
  import opened Wrappers
  import opened Model
  import opened PostMaps
  import opened Strconv
  import opened Http
  import opened Store
  import opened Server

  function Form(title: string, text: string): map<string, seq<string>>
  {
    map["title" := [title], "text" := [text]]
  }

  function GetAllRequest(): Request
  {
    Request(MethodGet, "/posts/", map[])
  }

  function GetRequest(id: Int): Request
  {
    Request(MethodGet, PostsPrefix + FormatInt(id), map[])
  }

  function CreateRequest(title: string, text: string): Request
  {
    Request(MethodPost, "/posts/new", Form(title, text))
  }

  /**
   * The tests' PUT request. Their builder takes a title and a text but always
   * sends "new title" and "new text", so this one takes only the id.
   */
  function UpdateRequest(id: Int): Request
  {
    Request(MethodPut, PostsPrefix + FormatInt(id), Form("new title", "new text"))
  }

  function DeleteRequest(id: Int): Request
  {
    Request(MethodDelete, PostsPrefix + FormatInt(id), map[])
  }

  /** The one-post store most handler tests start from. */
  function OnePost(counter: Int): PostStore
  {
    Stub(Table(counter, map[1 := Post(1, "title", "text")]))
  }

  /** GET /posts/ lists the single stored post with status 200 and a JSON content type. */
  lemma ReturnAllPosts()
    ensures Handle(OnePost(1), GetAllRequest()) ==
      Served(OnePost(1), Response(StatusOK, Some(JsonContentType),
                                  PostsJson(multiset{Post(1, "title", "text")})))
  {
    assert RouteKey("/posts/") == "";
    var none: map<Int, Post> := map[];
    assert ValuesOf(none) == multiset{};
    var p := Post(1, "title", "text");
    ValuesOfInsert(none, 1, p);
    var t := OnePost(1).table;
    assert none[1 := p] == t.posts;
    assert ValuesOf(t.posts) == multiset{p};
  }

  /** GET /posts/ on an empty store: status 200 and an empty list, not an error. */
  lemma ReturnEmptyPostsList()
    ensures Handle(Stub(Table(0, map[])), GetAllRequest()) ==
      Served(Stub(Table(0, map[])), Response(StatusOK, Some(JsonContentType), PostsJson(multiset{})))
  {
  }

  /** GET of an id the store lacks (2, next to a post under 99) answers 404. */
  lemma GetMissingIdIs404()
    ensures var s := Stub(Table(1, map[99 := Post(99, "title", "text")]));
      Handle(s, GetRequest(2)) == Served(s, StatusOnly(StatusNotFound))
  {
    FormattedIdRoutes(2);
  }

  /** GET /posts/abc answers 422. */
  lemma GetNonNumericIs422(s: PostStore)
    ensures Handle(s, Request(MethodGet, "/posts/abc", map[])) ==
            Served(s, StatusOnly(StatusUnprocessableEntity))
  {
    AtoiRejects();
    assert RouteKey("/posts/abc") == "abc";
  }

  /**
   * GET of a numeral past the 64-bit range (such as /posts/9223372036854775808)
   * answers 422: Atoi rejects it.
   */
  lemma OutOfRangeIdIs422(s: PostStore, d: string)
    requires d != [] && AllDigits(d) && DigitsValue(d) > MaxInt64
    ensures Handle(s, Request(MethodGet, PostsPrefix + d, map[])) ==
            Served(s, StatusOnly(StatusUnprocessableEntity))
  {
    AtoiAccepts("", d);
    assert "" + d == d;
    assert RouteKey(PostsPrefix + d) == d;
  }

  /** GET of a stored id: 200, JSON, the post. */
  lemma ReturnPostByID()
    ensures Handle(OnePost(1), GetRequest(1)) ==
      Served(OnePost(1), Response(StatusOK, Some(JsonContentType), PostJson(Post(1, "title", "text"))))
  {
    FormattedIdRoutes(1);
  }

  /** The failing store answers 404 to a read and to a create. */
  lemma FailedStoreAnswers404()
    ensures var s := Failed(FailedStore.StubFailedPostStore);
      && Handle(s, GetRequest(0)) == Served(s, StatusOnly(StatusNotFound))
      && Handle(s, CreateRequest("dummy title", "dummy text")) == Served(s, StatusOnly(StatusNotFound))
  {
    FormattedIdRoutes(0);
    assert RouteKey("/posts/new") == "new";
  }

  /** POST /posts/new on an empty store: 201, and the store then holds one post. */
  lemma CreateNewPost()
    ensures var o := Handle(Stub(Table(0, map[])), CreateRequest("title", "text"));
      && o.Served? && o.response == StatusOnly(StatusCreated)
      && o.store == Stub(Table(1, map[1 := Post(1, "title", "text")]))
  {
    assert RouteKey("/posts/new") == "new";
  }

  /** One POST /posts/new with "title" and "text" on a stub store: 201 and the post stored under the next counter. */
  lemma CreateStep(t: Table)
    requires t.counter < MaxInt64
    ensures Handle(Stub(t), CreateRequest("title", "text")) ==
      Served(Stub(Table(t.counter + 1, t.posts[t.counter + 1 := Post(t.counter + 1, "title", "text")])),
             StatusOnly(StatusCreated))
  {
    assert RouteKey("/posts/new") == "new";
  }

  /** Three creates on an empty store, then GET /posts/: status 200 and the posts 1, 2 and 3. */
  lemma CreatingPostsAndRetrievingThem()
    ensures var o1 := Handle(Stub(Table(0, map[])), CreateRequest("title", "text"));
      o1.Served? && o1.response.status == StatusCreated &&
      var o2 := Handle(o1.store, CreateRequest("title", "text"));
      o2.Served? && o2.response.status == StatusCreated &&
      var o3 := Handle(o2.store, CreateRequest("title", "text"));
      o3.Served? && o3.response.status == StatusCreated &&
      Handle(o3.store, GetAllRequest()) ==
        Served(o3.store, Response(StatusOK, Some(JsonContentType), PostsJson(multiset{
          Post(1, "title", "text"), Post(2, "title", "text"), Post(3, "title", "text")})))
  {
    var none: map<Int, Post> := map[];
    CreateStep(Table(0, none));
    var m1 := none[1 := Post(1, "title", "text")];
    CreateStep(Table(1, m1));
    var m2 := m1[2 := Post(2, "title", "text")];
    CreateStep(Table(2, m2));
    var m3 := m2[3 := Post(3, "title", "text")];
    assert m3 == ThreeCreated();
    ThreeCreatedValues();
    assert RouteKey("/posts/") == "";
  }


  /** PUT /posts/1 then GET /posts/: status 200 and only the rewritten post. */
  lemma UpdatingThePostAndRetrievingIt()
    ensures var o1 := Handle(OnePost(0), UpdateRequest(1));
      o1.Served? && o1.response == StatusOnly(StatusOK) &&
      Handle(o1.store, GetAllRequest()) ==
        Served(o1.store, Response(StatusOK, Some(JsonContentType),
                                  PostsJson(multiset{Post(1, "new title", "new text")})))
  {
    FormattedIdRoutes(1);
    assert RouteKey("/posts/") == "";
    var p := Post(1, "new title", "new text");
    var none: map<Int, Post> := map[];
    assert ValuesOf(none) == multiset{};
    ValuesOfInsert(none, 1, p);
    var o1 := Handle(OnePost(0), UpdateRequest(1));
    assert o1.store == Stub(Table(0, none[1 := p]));
    assert ValuesOf(none[1 := p]) == multiset{p};
  }

  /** DELETE /posts/1 answers 204; then GET /posts/ lists nothing and GET /posts/1 answers 404. */
  lemma DeletingThePostAndRetrievingOtherOnes()
    ensures var o1 := Handle(OnePost(0), DeleteRequest(1));
      o1.Served? && o1.response == StatusOnly(StatusNoContent) &&
      Handle(o1.store, GetAllRequest()) ==
        Served(o1.store, Response(StatusOK, Some(JsonContentType), PostsJson(multiset{}))) &&
      Handle(o1.store, GetRequest(1)) == Served(o1.store, StatusOnly(StatusNotFound))
  {
    FormattedIdRoutes(1);
    var o1 := Handle(OnePost(0), DeleteRequest(1));
    assert o1.store == Stub(Table(0, map[]));
  }

  /**
   * TestUpdatePost runs both subtests on one store: PUT /posts/1 answers 200 and
   * rewrites the post, then PUT /posts/2 on that updated store answers 404 and
   * leaves it as it was. In TestDeletePost, DELETE /posts/2 on a fresh one-post
   * store answers 404 and leaves it as it was. The post count stays at one.
   */
  lemma MissingIdKeepsCount()
    ensures var o1 := Handle(OnePost(1), UpdateRequest(1));
      && o1 == Served(Stub(Table(1, map[1 := Post(1, "new title", "new text")])), StatusOnly(StatusOK))
      && Handle(o1.store, UpdateRequest(2)) == Served(o1.store, StatusOnly(StatusNotFound))
      && |o1.store.table.posts| == 1
    ensures Handle(OnePost(1), DeleteRequest(2)) == Served(OnePost(1), StatusOnly(StatusNotFound))
  {
    FormattedIdRoutes(1);
    FormattedIdRoutes(2);
  }

  /** `reflect.DeepEqual` on two slices of posts: element by element, in order. */
  predicate DeepEqualPosts(a: seq<Post>, b: seq<Post>)
  {
    a == b
  }

  /** The posts the integration test's three creates leave in the store. */
  function ThreeCreated(): map<Int, Post>
  {
    map[1 := Post(1, "title", "text"), 2 := Post(2, "title", "text"), 3 := Post(3, "title", "text")]
  }

  lemma ThreeCreatedValues()
    ensures ValuesOf(ThreeCreated()) ==
            multiset{Post(1, "title", "text"), Post(2, "title", "text"), Post(3, "title", "text")}
  {
    var p1, p2, p3 := Post(1, "title", "text"), Post(2, "title", "text"), Post(3, "title", "text");
    var none: map<Int, Post> := map[];
    assert ValuesOf(none) == multiset{};
    var m1: map<Int, Post> := none[1 := p1];
    var m2: map<Int, Post> := m1[2 := p2];
    ValuesOfInsert(none, 1, p1);
    ValuesOfInsert(m1, 2, p2);
    ValuesOfInsert(m2, 3, p3);
    assert m2[3 := p3] == ThreeCreated();
  }

  /**
   * TestCreatingPostsAndRetrievingThem compares the handler's listing with a
   * second `GetAllPosts` of the same store by `DeepEqualPosts`. Both come from a
   * `range` over the same three-entry map; the two orders below are both listings
   * the loop may produce, and they are not DeepEqual.
   */
  lemma ListingComparisonCanFail()
    ensures var p1, p2, p3 := Post(1, "title", "text"), Post(2, "title", "text"), Post(3, "title", "text");
      && multiset([p1, p2, p3]) == ValuesOf(ThreeCreated())
      && multiset([p2, p3, p1]) == ValuesOf(ThreeCreated())
      && !DeepEqualPosts([p1, p2, p3], [p2, p3, p1])
  {
    ThreeCreatedValues();
    var p1, p2, p3 := Post(1, "title", "text"), Post(2, "title", "text"), Post(3, "title", "text");
    assert multiset([p1, p2, p3]) == multiset{p1, p2, p3};
    assert multiset([p2, p3, p1]) == multiset{p1, p2, p3};
    assert [p1, p2, p3][0] != [p2, p3, p1][0];
  }

  /**
   * The order-free comparison the integration tests mean: two runs of the
   * listing loop over one map always agree once order is set aside.
   */
  method ListingsMatch(m: map<Int, Post>) returns (same: bool)
    ensures same
  {
    var got := ListValues(m);
    var want := ListValues(m);
    same := multiset(got) == multiset(want);
  }
}

=== FILE: server.dfy ===
/**
 * The request dispatcher of server.go: `postsHandler` takes the route key off
 * the `/posts/` prefix, switches on the method, reads an id with `Atoi`, calls
 * the store once, and turns the outcome into a status, a content type and a
 * body. `Handle` states the whole decision table as a function of the store's
 * abstract value; `PostServer.PostsHandler` performs it against a store object
 * and a response writer and is proved to agree with it.
 */
module Server {
  import opened Wrappers
  import opened Model
  import opened Strconv
  import opened Http
  import opened Store

  const PostsPrefix: string := "/posts/"
  const JsonContentType: string := "application/json"

  /** `r.URL.Path[len("/posts/"):]`: what is left of the path after the prefix. */
  function RouteKey(path: string): (key: string)
    requires |path| >= |PostsPrefix|
    ensures PostsPrefix <= path ==> path == PostsPrefix + key
    ensures |key| == |path| - |PostsPrefix|
  {
    path[|PostsPrefix|..]
  }

  /**
   * `r.Form[name][0]` after `ParseForm`: None where Go's index expression would
   * panic because the field is absent (or has no value).
   */
  function FormValue(form: map<string, seq<string>>, name: string): (v: Option<string>)
    ensures v.Some? <==> name in form && |form[name]| > 0
    ensures v.Some? ==> v.value == form[name][0]
  {
    if name in form && |form[name]| > 0 then Some(form[name][0]) else None
  }

  /** What `postsHandler` decides to do, before any store call. */
  datatype Route =
    | ListAll
    | ReadOne(id: Int)
    | CreateNew
    | Replace(id: Int)
    | Remove(id: Int)
    | Unprocessable   // a 422 written without calling the store
    | NoMatch         // a method no case matches: nothing is written

  /** The method switch of `postsHandler` together with its key checks. */
  function RouteOf(httpMethod: string, key: string): (rt: Route)
    ensures rt.NoMatch? <==> httpMethod !in {MethodGet, MethodPost, MethodPut, MethodDelete}
    ensures rt.ListAll? <==> httpMethod == MethodGet && key == ""
    ensures rt.CreateNew? <==> httpMethod == MethodPost && key == "new"
    ensures rt.ReadOne? ==> httpMethod == MethodGet && Atoi(key) == Some(rt.id)
    ensures rt.Replace? ==> httpMethod == MethodPut && Atoi(key) == Some(rt.id)
    ensures rt.Remove? ==> httpMethod == MethodDelete && Atoi(key) == Some(rt.id)
    ensures rt.Unprocessable? <==>
      || (httpMethod == MethodPost && key != "new")
      || ((httpMethod == MethodPut || httpMethod == MethodDelete) && key == "")
      || (httpMethod in {MethodGet, MethodPut, MethodDelete} && key != "" && Atoi(key) == None)
  {
    if httpMethod == MethodGet then
      if key == "" then ListAll
      else match Atoi(key)
        case Some(id) => ReadOne(id)
        case None => Unprocessable
    else if httpMethod == MethodPost then
      if key == "new" then CreateNew else Unprocessable
    else if httpMethod == MethodPut then
      if key == "" then Unprocessable
      else match Atoi(key)
        case Some(id) => Replace(id)
        case None => Unprocessable
    else if httpMethod == MethodDelete then
      if key == "" then Unprocessable
      else match Atoi(key)
        case Some(id) => Remove(id)
        case None => Unprocessable
    else NoMatch
  }

  // The error-to-status mappings of the five store-calling handlers.

  /** `getAllPosts`: 404 on any store error, else the JSON list with the default 200. */
  ghost function ListResponse(s: PostStore): (resp: Response)
    ensures resp.status == StatusOK <==> GetAll(s).1 == None
    ensures resp.status == StatusOK ==> resp.contentType == Some(JsonContentType) && resp.body == PostsJson(GetAll(s).0)
    ensures resp.status != StatusOK ==> resp == StatusOnly(StatusNotFound)
  {
    var (posts, err) := GetAll(s);
    if err.Some? then StatusOnly(StatusNotFound)
    else Response(StatusOK, Some(JsonContentType), PostsJson(posts))
  }

  /** `getPostByID`: the switch on `err`, with not-found and any other error both 404. */
  function ReadResponse(post: Post, err: Option<GoError>): (resp: Response)
    ensures resp.status == StatusOK <==> err == None
    ensures err == None ==> resp.contentType == Some(JsonContentType) && resp.body == PostJson(post)
    ensures err.Some? ==> resp == StatusOnly(StatusNotFound)
  {
    match err
    case None => Response(StatusOK, Some(JsonContentType), PostJson(post))
    case Some(e) =>
      if e == PostErr(ErrorPostDoesNotExist) then StatusOnly(StatusNotFound)
      else StatusOnly(StatusNotFound)
  }

  /** `CreatePost`: 404 on failure (the 201 written after it is ignored), else 201. */
  function CreateStatus(err: Option<GoError>): (status: int)
    ensures status == StatusCreated <==> err == None
    ensures status in {StatusCreated, StatusNotFound}
  {
    if err.Some? then StatusNotFound else StatusCreated
  }

  /** `UpdatePost`: 404 on failure, else nothing is written and 200 goes out. */
  function UpdateStatus(err: Option<GoError>): (status: int)
    ensures status == StatusOK <==> err == None
    ensures status in {StatusOK, StatusNotFound}
  {
    if err.Some? then StatusNotFound else StatusOK
  }

  /** `DeletePost`: 404 on failure (the 204 written after it is ignored), else 204. */
  function DeleteStatus(err: Option<GoError>): (status: int)
    ensures status == StatusNoContent <==> err == None
    ensures status in {StatusNoContent, StatusNotFound}
  {
    if err.Some? then StatusNotFound else StatusNoContent
  }

  /** What one request does: the store afterwards and the response, or a panic. */
  datatype Outcome = Served(store: PostStore, response: Response) | Panicked

  /** The dispatcher as a function: the reference `PostsHandler` is proved against. */
  ghost function Handle(s: PostStore, r: Request): (o: Outcome)
    requires |r.path| >= |PostsPrefix|
    ensures o.Panicked? ==>
      && (r.httpMethod == MethodPost || r.httpMethod == MethodPut)
      && (FormValue(r.form, "title").None? || FormValue(r.form, "text").None?)
    ensures o.Served? && o.store != s ==>
      r.httpMethod in {MethodPost, MethodPut, MethodDelete}
  {
    match RouteOf(r.httpMethod, RouteKey(r.path))
    case ListAll => Served(s, ListResponse(s))
    case ReadOne(id) =>
      var (post, err) := GetByID(s, id);
      Served(s, ReadResponse(post, err))
    case CreateNew =>
      (match (FormValue(r.form, "title"), FormValue(r.form, "text"))
       case (Some(title), Some(text)) =>
         var (s', err) := Create(s, title, text);
         Served(s', StatusOnly(CreateStatus(err)))
       case _ => Panicked)
    case Replace(id) =>
      (match (FormValue(r.form, "title"), FormValue(r.form, "text"))
       case (Some(title), Some(text)) =>
         var (s', err) := Update(s, id, title, text);
         Served(s', StatusOnly(UpdateStatus(err)))
       case _ => Panicked)
    case Remove(id) =>
      var (s', err) := Delete(s, id);
      Served(s', StatusOnly(DeleteStatus(err)))
    case Unprocessable => Served(s, StatusOnly(StatusUnprocessableEntity))
    case NoMatch => Served(s, StatusOnly(StatusOK))
  }

  // The decision table, property by property.

  /**
   * A path built as "/posts/%d" routes GET, PUT and DELETE to that very id: Atoi
   * reads back what the decimal formatting wrote.
   */
  lemma FormattedIdRoutes(id: Int)
    ensures RouteKey(PostsPrefix + FormatInt(id)) == FormatInt(id)
    ensures RouteOf(MethodGet, FormatInt(id)) == ReadOne(id)
    ensures RouteOf(MethodPut, FormatInt(id)) == Replace(id)
    ensures RouteOf(MethodDelete, FormatInt(id)) == Remove(id)
  {
    AtoiFormatInt(id);
    assert (PostsPrefix + FormatInt(id))[|PostsPrefix|..] == FormatInt(id);
    assert FormatInt(id) != "" by {
      if id < 0 { } else { NatDigitsValue(id); }
    }
  }

  /** GET with an empty key lists every post: 200 with JSON, or 404 on a store error. */
  lemma GetCollection(s: PostStore, r: Request)
    requires |r.path| >= |PostsPrefix| && r.httpMethod == MethodGet && RouteKey(r.path) == ""
    ensures Handle(s, r).Served? && Handle(s, r).store == s
    ensures var resp := Handle(s, r).response;
      && (GetAll(s).1 == None ==>
            resp == Response(StatusOK, Some(JsonContentType), PostsJson(GetAll(s).0)))
      && (GetAll(s).1.Some? ==> resp == StatusOnly(StatusNotFound))
  {
  }

  /**
   * GET, PUT or DELETE with a key that is not a numeral answers 422 and leaves the
   * store alone (the store is never called).
   */
  lemma NonNumericIdIs422(s: PostStore, r: Request)
    requires |r.path| >= |PostsPrefix|
    requires r.httpMethod in {MethodGet, MethodPut, MethodDelete}
    requires RouteKey(r.path) != "" && Atoi(RouteKey(r.path)) == None
    ensures Handle(s, r) == Served(s, StatusOnly(StatusUnprocessableEntity))
  {
  }

  /** PUT or DELETE with an empty key answers 422 without calling the store. */
  lemma EmptyKeyIs422(s: PostStore, r: Request)
    requires |r.path| >= |PostsPrefix|
    requires r.httpMethod == MethodPut || r.httpMethod == MethodDelete
    requires RouteKey(r.path) == ""
    ensures Handle(s, r) == Served(s, StatusOnly(StatusUnprocessableEntity))
  {
  }

  /**
   * GET of a numeric id: 200 with JSON and the post exactly when the store finds
   * it; 404 for `ErrorPostDoesNotExist` and for every other error alike.
   */
  lemma GetOneStatus(s: PostStore, r: Request, id: Int)
    requires |r.path| >= |PostsPrefix| && r.httpMethod == MethodGet
    requires RouteKey(r.path) != "" && Atoi(RouteKey(r.path)) == Some(id)
    ensures Handle(s, r).Served? && Handle(s, r).store == s
    ensures var resp := Handle(s, r).response;
      && (resp.status == StatusOK <==> GetByID(s, id).1 == None)
      && (GetByID(s, id).1 == None ==>
            resp == Response(StatusOK, Some(JsonContentType), PostJson(GetByID(s, id).0)))
      && (GetByID(s, id).1.Some? ==> resp == StatusOnly(StatusNotFound))
  {
  }

  /**
   * POST to "new" with both form fields calls Create: 201 on success, 404 on
   * failure (the first WriteHeader wins over the 201 that follows). A missing
   * field panics before the store is called.
   */
  lemma PostNewStatus(s: PostStore, r: Request)
    requires |r.path| >= |PostsPrefix| && r.httpMethod == MethodPost && RouteKey(r.path) == "new"
    ensures FormValue(r.form, "title").None? || FormValue(r.form, "text").None? ==>
            Handle(s, r) == Panicked
    ensures FormValue(r.form, "title").Some? && FormValue(r.form, "text").Some? ==>
      var (s', err) := Create(s, r.form["title"][0], r.form["text"][0]);
      && Handle(s, r) == Served(s', StatusOnly(if err == None then StatusCreated else StatusNotFound))
  {
  }

  /** POST to any key but "new" answers 422 without calling the store. */
  lemma PostOtherKeyIs422(s: PostStore, r: Request)
    requires |r.path| >= |PostsPrefix| && r.httpMethod == MethodPost && RouteKey(r.path) != "new"
    ensures Handle(s, r) == Served(s, StatusOnly(StatusUnprocessableEntity))
  {
  }

  /**
   * PUT of a numeric id with both fields: 200 (nothing written) on success, else
   * 404. A missing field panics before the store is called.
   */
  lemma PutStatus(s: PostStore, r: Request, id: Int)
    requires |r.path| >= |PostsPrefix| && r.httpMethod == MethodPut
    requires RouteKey(r.path) != "" && Atoi(RouteKey(r.path)) == Some(id)
    ensures FormValue(r.form, "title").None? || FormValue(r.form, "text").None? ==>
            Handle(s, r) == Panicked
    ensures FormValue(r.form, "title").Some? && FormValue(r.form, "text").Some? ==>
      var (s', err) := Update(s, id, r.form["title"][0], r.form["text"][0]);
      Handle(s, r) == Served(s', StatusOnly(if err == None then StatusOK else StatusNotFound))
  {
  }

  /** DELETE of a numeric id: 204 on success, 404 on failure (the later 204 is ignored). */
  lemma DeleteStatusLemma(s: PostStore, r: Request, id: Int)
    requires |r.path| >= |PostsPrefix| && r.httpMethod == MethodDelete
    requires RouteKey(r.path) != "" && Atoi(RouteKey(r.path)) == Some(id)
    ensures var (s', err) := Delete(s, id);
      Handle(s, r) == Served(s', StatusOnly(if err == None then StatusNoContent else StatusNotFound))
  {
  }

  /** A method no case matches writes nothing (so 200 goes out) and changes nothing. */
  lemma OtherMethodWritesNothing(s: PostStore, r: Request)
    requires |r.path| >= |PostsPrefix|
    requires r.httpMethod !in {MethodGet, MethodPost, MethodPut, MethodDelete}
    ensures Handle(s, r) == Served(s, Response(StatusOK, None, NoBody))
  {
  }

  /** Only the handlers that call Create, Update or Delete can change the store. */
  lemma ReadsKeepStore(s: PostStore, r: Request)
    requires |r.path| >= |PostsPrefix|
    requires r.httpMethod != MethodPost && r.httpMethod != MethodPut && r.httpMethod != MethodDelete
    ensures Handle(s, r) == Served(s, Handle(s, r).response)
  {
  }

  /**
   * Against the always-failing store no request succeeds: nothing is created or
   * deleted, no body is sent, and the store value stays as it was.
   */
  lemma FailedStoreNeverSucceeds(f: FailedStore.StubFailedPostStore, r: Request)
    requires |r.path| >= |PostsPrefix|
    ensures Handle(Failed(f), r).Served? ==>
      var resp := Handle(Failed(f), r).response;
      && Handle(Failed(f), r).store == Failed(f)
      && resp.body == NoBody && resp.contentType == None
      && resp.status in {StatusNotFound, StatusUnprocessableEntity, StatusOK}
      && (resp.status == StatusOK ==> RouteOf(r.httpMethod, RouteKey(r.path)).NoMatch?)
  {
  }

  /** Every status the handler can send is one of 200, 201, 204, 404 and 422. */
  lemma StatusesSent(s: PostStore, r: Request)
    requires |r.path| >= |PostsPrefix|
    ensures Handle(s, r).Served? ==>
      Handle(s, r).response.status in
        {StatusOK, StatusCreated, StatusNoContent, StatusNotFound, StatusUnprocessableEntity}
  {
  }

  /** `PostServer`: the store it was built with, and the handler. */
  class PostServer {
    const store: Backend

    /** `NewPostServer(store, log)`; the logger is not part of this model. */
    constructor (store: Backend)
      ensures this.store == store
    {
      this.store := store;
    }

    /** `postsHandler`, for a request the mux routed here (its path starts with "/posts/"). */
    method PostsHandler(w: ResponseWriter, r: Request) returns (panicked: bool)
      requires |r.path| >= |PostsPrefix|
      requires w.Unwritten() && w !in store.Repr()
      modifies w, store.Repr()
      ensures Handle(old(store.State()), r) ==
              if panicked then Panicked else Served(store.State(), w.Result())
      ensures panicked ==> store.State() == old(store.State()) && w.Unwritten()
    {
      panicked := false;
      var postID := r.path[|PostsPrefix|..];
      if r.httpMethod == MethodGet {
        if postID == "" {
          GetAllPosts(w);
        } else {
          var id := Atoi(postID);
          if id.None? {
            w.WriteHeader(StatusUnprocessableEntity);
            return;
          }
          GetPostByID(w, id.value);
        }
      } else if r.httpMethod == MethodPost {
        if postID == "new" {
          var title := FormValue(r.form, "title");
          if title.None? {
            return true;
          }
          var text := FormValue(r.form, "text");
          if text.None? {
            return true;
          }
          CreatePost(w, title.value, text.value);
        } else {
          w.WriteHeader(StatusUnprocessableEntity);
        }
      } else if r.httpMethod == MethodPut {
        if postID == "" {
          w.WriteHeader(StatusUnprocessableEntity);
        } else {
          var id := Atoi(postID);
          if id.None? {
            w.WriteHeader(StatusUnprocessableEntity);
            return;
          }
          var title := FormValue(r.form, "title");
          if title.None? {
            return true;
          }
          var text := FormValue(r.form, "text");
          if text.None? {
            return true;
          }
          UpdatePost(w, id.value, title.value, text.value);
        }
      } else if r.httpMethod == MethodDelete {
        if postID == "" {
          w.WriteHeader(StatusUnprocessableEntity);
        } else {
          var id := Atoi(postID);
          if id.None? {
            w.WriteHeader(StatusUnprocessableEntity);
            return;
          }
          DeletePost(w, id.value);
        }
      }
    }

    /** `getAllPosts`. */
    method GetAllPosts(w: ResponseWriter)
      requires w.Unwritten() && w !in store.Repr()
      modifies w
      ensures w.Result() == ListResponse(store.State())
    {
      var posts, err := store.GetAllPosts();
      if err.Some? {
        w.WriteHeader(StatusNotFound);
        return;
      }
      w.SetContentType(JsonContentType);
      w.EncodePosts(posts);
    }

    /** `getPostByID`. */
    method GetPostByID(w: ResponseWriter, id: Int)
      requires w.Unwritten() && w !in store.Repr()
      modifies w
      ensures var (post, err) := GetByID(store.State(), id);
        w.Result() == ReadResponse(post, err)
    {
      var post, err := store.GetPostByID(id);
      if err == Some(PostErr(ErrorPostDoesNotExist)) {
        w.WriteHeader(StatusNotFound);
      } else if err == None {
        w.SetContentType(JsonContentType);
        w.EncodePost(post);
      } else {
        w.WriteHeader(StatusNotFound);
      }
    }

    /** The `CreatePost` handler. */
    method CreatePost(w: ResponseWriter, title: string, text: string)
      requires w.Unwritten() && w !in store.Repr()
      modifies w, store.Repr()
      ensures var (s, err) := Create(old(store.State()), title, text);
        store.State() == s && w.Result() == StatusOnly(CreateStatus(err))
    {
      var err := store.CreatePost(title, text);
      if err.Some? {
        w.WriteHeader(StatusNotFound);
      }
      w.WriteHeader(StatusCreated);
    }

    /** The `UpdatePost` handler. */
    method UpdatePost(w: ResponseWriter, id: Int, title: string, text: string)
      requires w.Unwritten() && w !in store.Repr()
      modifies w, store.Repr()
      ensures var (s, err) := Update(old(store.State()), id, title, text);
        store.State() == s && w.Result() == StatusOnly(UpdateStatus(err))
    {
      var err := store.UpdatePost(id, title, text);
      if err.Some? {
        w.WriteHeader(StatusNotFound);
      }
    }

    /** The `DeletePost` handler. */
    method DeletePost(w: ResponseWriter, id: Int)
      requires w.Unwritten() && w !in store.Repr()
      modifies w, store.Repr()
      ensures var (s, err) := Delete(old(store.State()), id);
        store.State() == s && w.Result() == StatusOnly(DeleteStatus(err))
    {
      var err := store.DeletePost(id);
      if err.Some? {
        w.WriteHeader(StatusNotFound);
      }
      w.WriteHeader(StatusNoContent);
    }
  }
}

=== FILE: store.dfy ===
/**
 * The `PostStore` interface (store/postgres.go) over the three stores of the
 * modelled core. Dafny's interface types are not used here, so the
 * interface is a closed sum: `PostStore` is the abstract value of whichever store
 * stands behind it, and `Backend` holds the store object itself and forwards
 * each call to it. Connect and Disconnect are left out: the handler never calls
 * them and the two map-backed stores do not have them.
 */
module Store {
  import opened Wrappers
  import opened Model
  import opened PostMaps
  import InMemory
  import StubStore
  import FailedStore

  datatype PostStore =
    | Memory(table: Table)
    | Stub(table: Table)
    | Failed(failed: FailedStore.StubFailedPostStore)

  /** `GetAllPosts`, with the list seen as a multiset (Go map order is unspecified). */
  ghost function GetAll(s: PostStore): (multiset<Post>, Option<GoError>)
  {
    match s
    case Memory(t) => (ValuesOf(t.posts), None)
    case Stub(t) => (ValuesOf(t.posts), None)
    case Failed(f) => var (posts, err) := f.GetAllPosts(); (multiset(posts), err)
  }

  function GetByID(s: PostStore, id: Int): (Post, Option<GoError>)
  {
    match s
    case Memory(t) => (InMemory.Get(t, id), None)
    case Stub(t) => StubStore.Get(t, id)
    case Failed(f) => f.GetPostByID(id)
  }

  function Create(s: PostStore, title: string, text: string): (PostStore, Option<GoError>)
  {
    match s
    case Memory(t) => (Memory(InMemory.Create(t, title, text)), None)
    case Stub(t) => var (r, err) := StubStore.Create(t, title, text); (Stub(r), err)
    case Failed(f) => (s, f.CreatePost(title, text))
  }

  function Update(s: PostStore, id: Int, title: string, text: string): (PostStore, Option<GoError>)
  {
    match s
    case Memory(t) => (Memory(InMemory.Update(t, id, title, text)), None)
    case Stub(t) => var (r, err) := StubStore.Update(t, id, title, text); (Stub(r), err)
    case Failed(f) => (s, f.UpdatePost(id, title, text))
  }

  function Delete(s: PostStore, id: Int): (PostStore, Option<GoError>)
  {
    match s
    case Memory(t) => (Memory(InMemory.Delete(t, id)), None)
    case Stub(t) => var (r, err) := StubStore.Delete(t, id); (Stub(r), err)
    case Failed(f) => (s, f.DeletePost(id))
  }

  /** A store operation that fails leaves the store as it was. */
  lemma FailureChangesNothing(s: PostStore, id: Int, title: string, text: string)
    ensures Create(s, title, text).1.Some? ==> Create(s, title, text).0 == s
    ensures Update(s, id, title, text).1.Some? ==> Update(s, id, title, text).0 == s
    ensures Delete(s, id).1.Some? ==> Delete(s, id).0 == s
  {
  }

  /**
   * Round trip through the interface: after a Create that reports no error, the
   * post reads back under the new counter value with no error.
   */
  lemma CreateThenGet(s: PostStore, title: string, text: string)
    requires Create(s, title, text).1 == None
    ensures var r := Create(s, title, text).0;
      && !r.Failed?
      && GetByID(r, r.table.counter) == (Post(r.table.counter, title, text), None)
  {
  }

  /**
   * After deleting a stored id, reading it back: the stub store reports
   * `ErrorPostDoesNotExist`; the in-memory store reports no error and hands out
   * the zero Post.
   */
  lemma DeleteThenGet(s: PostStore, id: Int)
    requires !s.Failed? && id in s.table.posts
    ensures Delete(s, id).1 == None
    ensures s.Stub? ==> GetByID(Delete(s, id).0, id) == (ZeroPost, Some(PostErr(ErrorPostDoesNotExist)))
    ensures s.Memory? ==> GetByID(Delete(s, id).0, id) == (ZeroPost, None)
  {
  }

  /** Update of a missing id: the stub store fails and keeps its count; the in-memory one inserts. */
  lemma UpdateMissing(s: PostStore, id: Int, title: string, text: string)
    requires !s.Failed? && id !in s.table.posts
    ensures s.Stub? ==> Update(s, id, title, text) == (s, Some(PostErr(ErrorPostDoesNotExist)))
    ensures s.Memory? ==> |Update(s, id, title, text).0.table.posts| == |s.table.posts| + 1
  {
    if s.Memory? {
      InMemory.UpdateUpserts(s.table, id, title, text);
    }
  }

  /** GetAll on a store with no posts gives no posts and no error. */
  lemma GetAllOnEmpty(s: PostStore)
    requires !s.Failed? && s.table.posts == map[]
    ensures GetAll(s) == (multiset{}, None)
  {
  }

  /**
   * What GetAll lists after a successful Create whose counter covers every key:
   * the earlier posts plus the new one.
   */
  lemma CreateGrowsListing(s: PostStore, title: string, text: string)
    requires !s.Failed? && CounterCoversKeys(s.table) && s.table.counter < MaxInt64
    requires Create(s, title, text).1 == None
    ensures GetAll(Create(s, title, text).0) ==
            (GetAll(s).0 + multiset{Post(s.table.counter + 1, title, text)}, None)
  {
    ValuesOfInsert(s.table.posts, s.table.counter + 1, Post(s.table.counter + 1, title, text));
  }

  /** What GetAll lists after a successful Update of a stored id: the old post swapped for the new. */
  lemma UpdateSwapsListing(s: PostStore, id: Int, title: string, text: string)
    requires !s.Failed? && id in s.table.posts
    ensures Update(s, id, title, text).1 == None
    ensures GetAll(Update(s, id, title, text).0) ==
            (GetAll(s).0 - multiset{s.table.posts[id]} + multiset{Post(id, title, text)}, None)
  {
    ValuesOfReplace(s.table.posts, id, Post(id, title, text));
  }

  /** What GetAll lists after deleting a stored id: everything but that post. */
  lemma DeleteShrinksListing(s: PostStore, id: Int)
    requires !s.Failed? && id in s.table.posts
    ensures Delete(s, id).1 == None
    ensures GetAll(Delete(s, id).0) == (GetAll(s).0 - multiset{s.table.posts[id]}, None)
  {
    var m: map<Int, Post> := s.table.posts;
    ValuesOfRemove(m, id);
    assert Delete(s, id).0.table.posts == m - {id};
    assert ValuesOf(m - {id}) + multiset{m[id]} - multiset{m[id]} == ValuesOf(m - {id});
  }

  /** The store object behind the interface, forwarding each call to it. */
  datatype Backend =
    | MemoryBackend(memory: InMemory.InMemoryPostStore)
    | StubBackend(stub: StubStore.StubPostStore)
    | FailedBackend(failed: FailedStore.StubFailedPostStore)
  {
    /** The objects the store keeps its state in. */
    function Repr(): set<object>
    {
      match this
      case MemoryBackend(m) => {m}
      case StubBackend(s) => {s}
      case FailedBackend(_) => {}
    }

    ghost function State(): PostStore
      reads Repr()
    {
      match this
      case MemoryBackend(m) => Memory(m.State())
      case StubBackend(s) => Stub(s.State())
      case FailedBackend(f) => Failed(f)
    }

    method GetAllPosts() returns (posts: seq<Post>, err: Option<GoError>)
      ensures (multiset(posts), err) == GetAll(State())
    {
      match this
      case MemoryBackend(m) => posts, err := m.GetAllPosts();
      case StubBackend(s) => posts, err := s.GetAllPosts();
      case FailedBackend(f) => posts, err := f.GetAllPosts().0, f.GetAllPosts().1;
    }

    method GetPostByID(id: Int) returns (post: Post, err: Option<GoError>)
      ensures (post, err) == GetByID(State(), id)
    {
      match this
      case MemoryBackend(m) => post, err := m.GetPostByID(id);
      case StubBackend(s) => post, err := s.GetPostByID(id);
      case FailedBackend(f) => post, err := f.GetPostByID(id).0, f.GetPostByID(id).1;
    }

    method CreatePost(title: string, text: string) returns (err: Option<GoError>)
      modifies Repr()
      ensures (State(), err) == Create(old(State()), title, text)
    {
      match this
      case MemoryBackend(m) => err := m.CreatePost(title, text);
      case StubBackend(s) => err := s.CreatePost(title, text);
      case FailedBackend(f) => err := f.CreatePost(title, text);
    }

    method UpdatePost(id: Int, title: string, text: string) returns (err: Option<GoError>)
      modifies Repr()
      ensures (State(), err) == Update(old(State()), id, title, text)
    {
      match this
      case MemoryBackend(m) => err := m.UpdatePost(id, title, text);
      case StubBackend(s) => err := s.UpdatePost(id, title, text);
      case FailedBackend(f) => err := f.UpdatePost(id, title, text);
    }

    method DeletePost(id: Int) returns (err: Option<GoError>)
      modifies Repr()
      ensures (State(), err) == Delete(old(State()), id)
    {
      match this
      case MemoryBackend(m) => err := m.DeletePost(id);
      case StubBackend(s) => err := s.DeletePost(id);
      case FailedBackend(f) => err := f.DeletePost(id);
    }
  }
}

=== FILE: strconv.dfy ===
/**
 * Go's `strconv.Atoi` as the handler uses it to read the id out of the path,
 * and its inverse, the decimal formatting (`%d`, `strconv.Itoa`) that builds
 * such paths.
 */
module Strconv {
  import opened Wrappers
  import opened Model

  predicate IsDigit(c: char)
  {
    '0' <= c <= '9'
  }

  predicate AllDigits(s: string)
  {
    forall i | 0 <= i < |s| :: IsDigit(s[i])
  }

  /** The value of a string of decimal digits, most significant first. */
  function DigitsValue(s: string): nat
    requires AllDigits(s)
    decreases |s|
  {
    if s == [] then 0
    else DigitsValue(s[..|s| - 1]) * 10 + (s[|s| - 1] as int - '0' as int)
  }

  /**
   * `strconv.Atoi`: an optional sign followed by at least one decimal digit, whose
   * value fits a 64-bit int. Anything else (empty, a bare sign, any other
   * character, out of range) is an error.
   */
  function Atoi(s: string): (r: Option<Int>)
    ensures r.Some? ==> s != [] && (IsDigit(s[0]) || (|s| > 1 && (s[0] == '+' || s[0] == '-')))
    ensures r.Some? ==> forall i | 0 < i < |s| :: IsDigit(s[i])
  {
    var signed := |s| > 0 && (s[0] == '+' || s[0] == '-');
    var digits := if signed then s[1..] else s;
    if digits == [] || !AllDigits(digits) then None
    else
      var v: int := if signed && s[0] == '-' then -(DigitsValue(digits) as int) else DigitsValue(digits);
      if MinInt64 <= v <= MaxInt64 then Some(v) else None
  }

  function Digit(d: nat): (c: char)
    requires d < 10
  {
    ('0' as int + d) as char
  }

  /** The decimal digits of a natural number, with no leading zeros. */
  function NatDigits(n: nat): string
    decreases n
  {
    if n < 10 then [Digit(n)] else NatDigits(n / 10) + [Digit(n % 10)]
  }

  /** `%d` / `strconv.Itoa`: a minus sign for negative numbers, then the digits. */
  function FormatInt(n: int): string
  {
    if n < 0 then "-" + NatDigits(-n) else NatDigits(n)
  }

  /**
   * Every optional sign followed by one or more digits is read as its value when
   * that fits a 64-bit int and rejected when it does not: with the shape stated
   * by `Atoi`'s contract, this is the whole of what `Atoi` accepts.
   */
  lemma AtoiAccepts(sign: string, d: string)
    requires sign == "" || sign == "+" || sign == "-"
    requires d != [] && AllDigits(d)
    ensures var v: int := if sign == "-" then -(DigitsValue(d) as int) else DigitsValue(d);
      Atoi(sign + d) == if MinInt64 <= v <= MaxInt64 then Some(v) else None
  {
    assert IsDigit(d[0]);
    if sign != "" {
      assert (sign + d)[1..] == d;
    } else {
      assert sign + d == d;
    }
  }

  /** Reading back the digits of n gives n. */
  lemma {:induction false} NatDigitsValue(n: nat)
    ensures NatDigits(n) != [] && AllDigits(NatDigits(n))
    ensures DigitsValue(NatDigits(n)) == n
    decreases n
  {
    if n >= 10 {
      NatDigitsValue(n / 10);
      var s := NatDigits(n);
      assert s[..|s| - 1] == NatDigits(n / 10);
    }
  }

  /** Atoi undoes the decimal formatting of every 64-bit int. */
  lemma AtoiFormatInt(n: Int)
    ensures Atoi(FormatInt(n)) == Some(n)
  {
    if n < 0 {
      var m: nat := -(n as int);
      NatDigitsValue(m);
      assert FormatInt(n)[1..] == NatDigits(m);
    } else {
      NatDigitsValue(n);
    }
  }

  /** Keys that are not numerals are refused: the empty key, "new", "abc", a bare sign. */
  lemma AtoiRejects()
    ensures Atoi("") == None && Atoi("new") == None && Atoi("abc") == None
    ensures Atoi("-") == None && Atoi("+") == None && Atoi("1a") == None
  {
    assert !AllDigits("1a") by { assert !IsDigit("1a"[1]); }
  }
}

=== FILE: stubstore.dfy ===
/**
 * `StubPostStore` (testdata/StubPostStore.go): the stricter map-plus-counter
 * store the handler tests run against. Create rejects an empty title or text;
 * Get, Update and Delete report `ErrorPostDoesNotExist` for a missing id.
 */
module StubStore {
  import opened Wrappers
  import opened Model
  import opened PostMaps

  const NotFound: GoError := PostErr(ErrorPostDoesNotExist)
  const NotCreated: GoError := PostErr(ErrorPostIsNotCreated)

  // The store's behaviour as functions of its abstract state.

  /** `GetPostByID`: the entry, or the zero Post with `ErrorPostDoesNotExist`. */
  function Get(t: Table, id: Int): (Post, Option<GoError>)
  {
    if id in t.posts then (t.posts[id], None) else (ZeroPost, Some(NotFound))
  }

  /** `CreatePost`: validate, then bump the counter and store under it. */
  function Create(t: Table, title: string, text: string): (Table, Option<GoError>)
  {
    if title == "" || text == "" then (t, Some(NotCreated))
    else
      var id := Inc(t.counter);
      (Table(id, t.posts[id := Post(id, title, text)]), None)
  }

  /** `UpdatePost`: look the id up first and pass its error on; else rewrite it. */
  function Update(t: Table, id: Int, title: string, text: string): (Table, Option<GoError>)
  {
    var (_, err) := Get(t, id);
    if err.Some? then (t, err)
    else (t.(posts := t.posts[id := Post(id, title, text)]), None)
  }

  /** `DeletePost`: look the id up first and pass its error on; else delete it. */
  function Delete(t: Table, id: Int): (Table, Option<GoError>)
  {
    var (_, err) := Get(t, id);
    if err.Some? then (t, err)
    else (t.(posts := t.posts - {id}), None)
  }

  // Properties of the specification.

  /** Get succeeds exactly on the stored ids; a miss gives `Post{}` and not-found. */
  lemma GetReportsMissing(t: Table, id: Int)
    ensures Get(t, id).1.None? <==> id in t.posts
    ensures id in t.posts ==> Get(t, id).0 == t.posts[id]
    ensures id !in t.posts ==> Get(t, id) == (Post(0, "", ""), Some(PostErr(ErrorPostDoesNotExist)))
  {
  }

  /** An empty title or text is refused with `ErrorPostIsNotCreated`, changing nothing. */
  lemma CreateRejectsEmpty(t: Table, title: string, text: string)
    requires title == "" || text == ""
    ensures Create(t, title, text) == (t, Some(PostErr(ErrorPostIsNotCreated)))
  {
  }

  /**
   * With both fields filled in Create succeeds, bumps the counter by one and the
   * new post reads back under the new counter.
   */
  lemma CreateThenGet(t: Table, title: string, text: string)
    requires title != "" && text != "" && t.counter < MaxInt64
    ensures var (r, err) := Create(t, title, text);
      && err == None
      && r.counter == t.counter + 1
      && r.posts == t.posts[t.counter + 1 := Post(t.counter + 1, title, text)]
      && Get(r, r.counter) == (Post(r.counter, title, text), None)
  {
  }

  /** On an empty store a successful Create takes the post count from 0 to 1. */
  lemma CreateOnEmpty(title: string, text: string)
    requires title != "" && text != ""
    ensures |Create(Table(0, map[]), title, text).0.posts| == 1
  {
  }

  /**
   * Create does not check whether the new key is taken: with the counter below a
   * stored key (counter 0 next to key 1) it overwrites that post and the count
   * stays the same.
   */
  lemma CreateOverwritesTakenKey()
    ensures var t := Table(0, map[1 := Post(1, "title", "text")]);
      var (r, err) := Create(t, "new title", "new text");
      && err == None
      && r.posts == map[1 := Post(1, "new title", "new text")]
      && |r.posts| == |t.posts|
  {
  }

  /** Update of a missing id fails with not-found and leaves the table as it was. */
  lemma UpdateMissing(t: Table, id: Int, title: string, text: string)
    requires id !in t.posts
    ensures Update(t, id, title, text) == (t, Some(PostErr(ErrorPostDoesNotExist)))
  {
  }

  /** Update of a present id replaces only that entry; the count is unchanged. */
  lemma UpdatePresent(t: Table, id: Int, title: string, text: string)
    requires id in t.posts
    ensures var (r, err) := Update(t, id, title, text);
      && err == None
      && r.counter == t.counter
      && r.posts.Keys == t.posts.Keys
      && r.posts[id] == Post(id, title, text)
      && (forall k | k in t.posts && k != id :: r.posts[k] == t.posts[k])
      && |r.posts| == |t.posts|
  {
    var (r, err) := Update(t, id, title, text);
    assert r.posts.Keys == t.posts.Keys;
  }

  /** Delete of a missing id fails with not-found and leaves the table as it was. */
  lemma DeleteMissing(t: Table, id: Int)
    requires id !in t.posts
    ensures Delete(t, id) == (t, Some(PostErr(ErrorPostDoesNotExist)))
  {
  }

  /**
   * Delete of a present id removes exactly that key: the count drops by one, the
   * other entries stay, and a later Get of the id fails.
   */
  lemma DeleteThenGet(t: Table, id: Int)
    requires id in t.posts
    ensures var (r, err) := Delete(t, id);
      && err == None
      && r.counter == t.counter
      && r.posts.Keys == t.posts.Keys - {id}
      && (forall k | k in r.posts :: r.posts[k] == t.posts[k])
      && |r.posts| == |t.posts| - 1
      && Get(r, id) == (Post(0, "", ""), Some(PostErr(ErrorPostDoesNotExist)))
  {
    var (r, err) := Delete(t, id);
    assert r.posts.Keys == t.posts.Keys - {id};
  }

  /** Create (when it succeeds), Update and Delete keep every entry's id equal to its key. */
  lemma OperationsKeepIds(t: Table, id: Int, title: string, text: string)
    requires KeysMatchIds(t.posts)
    ensures KeysMatchIds(Create(t, title, text).0.posts)
    ensures KeysMatchIds(Update(t, id, title, text).0.posts)
    ensures KeysMatchIds(Delete(t, id).0.posts)
  {
  }

  /** The store object: `StubPostStore{Counter, Posts}`. */
  class StubPostStore {
    var counter: Int
    var posts: map<Int, Post>

    function State(): Table
      reads this
    {
      Table(counter, posts)
    }

    /** The struct literal `StubPostStore{counter, posts}` the tests build. */
    constructor (counter: Int, posts: map<Int, Post>)
      ensures State() == Table(counter, posts)
    {
      this.counter := counter;
      this.posts := posts;
    }

    /** Every stored post, once per key, in no particular order; never an error. */
    method GetAllPosts() returns (values: seq<Post>, err: Option<GoError>)
      ensures multiset(values) == ValuesOf(posts) && |values| == |posts|
      ensures err == None
    {
      values := ListValues(posts);
      ListedPosts(posts, values);
      err := None;
    }

    method GetPostByID(id: Int) returns (post: Post, err: Option<GoError>)
      ensures (post, err) == Get(State(), id)
    {
      if id !in posts {
        var p: Post := ZeroPost;
        return p, Some(NotFound);
      }
      return posts[id], None;
    }

    method CreatePost(title: string, text: string) returns (err: Option<GoError>)
      modifies this
      ensures (State(), err) == Create(old(State()), title, text)
    {
      if title == "" || text == "" {
        return Some(NotCreated);
      }
      counter := Inc(counter);
      posts := posts[counter := Post(counter, title, text)];
      return None;
    }

    method UpdatePost(id: Int, title: string, text: string) returns (err: Option<GoError>)
      modifies this
      ensures (State(), err) == Update(old(State()), id, title, text)
    {
      var _, e := GetPostByID(id);
      if e.Some? {
        return e;
      }
      posts := posts[id := Post(id, title, text)];
      return None;
    }

    method DeletePost(id: Int) returns (err: Option<GoError>)
      modifies this
      ensures (State(), err) == Delete(old(State()), id)
    {
      var _, e := GetPostByID(id);
      if e.Some? {
        return e;
      }
      posts := posts - {id};
      return None;
    }
  }
}

=== FILE: wrappers.dfy ===
/** Go's `nil`-or-value results, as an Option. */
module Wrappers {

  datatype Option<+T> = None | Some(value: T)
}
